=== FILE: README.md ===
# ZwiftQuest waypoint quest — a Dafny model

This project models the scoring core of the ZwiftQuest overlay (`zwiftquest.js`):
riders on a live map must cross a start waypoint, then every ordinary waypoint in
any order, then the finish. The model covers five parts:

- **the player visitation engine** of the `Player` class: the ordering gate
  `waypointEnabled`, the in-place waypoint loop of `updatePosition` written as a
  left fold, the three-sample position history, `refreshWaypoints`,
  `resetScore`, `hasStarted` and `getScore`;
- **quest interpretation** (`getFromZwiftQuest`): picking the per-world quest or
  the flat payload, and laying it out as start, ordinary waypoints, finish, or
  setting the world-mismatch / world-inactive message;
- **the leaderboard** (`infoPanel`);
- **the poll gate and event window** (`updateState`, `checkPendingEvent`,
  `resetScores`);
- **the quest cache lookup** `get` with fill-on-miss.

Everything is an immutable datatype and a pure function. The crossing detector
is a function parameter (`Visitation.Crossing`). The coordinate transform is a
function parameter too (`QuestPayload.CoordinateMap`). The downloaded quest
(`QuestPayload.Payload`) is a parameter of `ZwiftQuest.Get`, which downloads
only on a cache miss. The clock, the live positions and the schedule lookup's
outcome are the other inputs (`ZwiftQuest.PollInput`). The lookup either
answered with a matching event or none (`Answered`), or was rejected or has
not answered (`Unanswered`). Both module-level caches are plain values: the
quest cache is a `map` from world id to waypoints. The player cache is a
sequence of key/player slots in key insertion order (`PlayerStore.Store`).

Modules and files:

| file | module | models |
|---|---|---|
| wrappers.dfy | `Wrappers`, `Seqs` | `null`/`undefined` as `Option`; `Array.prototype.find` as `FindIndex` |
| waypoints.dfy | `Waypoints` | roles, template waypoints, player waypoints, feed samples |
| players.dfy | `Players` | `Player`, `getScore`, `hasStarted`, `resetScore`, `refreshWaypoints` |
| visitation.dfy | `Visitation` | `waypointEnabled`, `updatePosition` |
| quest_payload.dfy | `QuestPayload` | `getFromZwiftQuest`, `toPoint`, `world_names` |
| leaderboard.dfy | `Leaderboard` | `infoPanel` scores and banner |
| player_store.dfy | `PlayerStore` | the player cache, `resetScores` over it |
| zwift_quest.dfy | `ZwiftQuest` | `get`, `updateState`, `checkPendingEvent`, `resetScores`, `infoPanel` of an instance |
| scenarios.dfy | `Scenarios` | a worked run: the finish crossed too early is ignored |

## Behaviour taken from the code

This model follows the code, including these easily-missed behaviours:

- **Failures are cached.** `get` stores whatever the download yielded, including
  `[]` after a failed download or a world mismatch (zwiftquest.js:62). An empty
  array is truthy, so later calls serve it as a hit (zwiftquest.js:57).
  See `ZwiftQuest.FailedDownloadIsCached`.
- **A pending event skips the whole update** (zwiftquest.js:176-178). The
  history does not advance; only `refreshWaypoints` runs.
- **The warm-up test is strict at both ends:** `start - 10 min < now < start`
  (zwiftquest.js:195).
- **The reset runs on every check that finds the event pending**, not only on
  the transition into the window. It resets every cached player, of every world
  (zwiftquest.js:197, 207-209).
- **`refreshWaypoints` matching is loose.** The first match wins. An old
  waypoint without a role matches a template waypoint of any role at the same
  x, y (zwiftquest.js:260). See `Players.SharedSpotLosesStartFlag` and
  `Players.SharedFinishSpotGainsFlag`.
- **`infoPanel` reads every cached player**, of every world
  (zwiftquest.js:70-72). See `ZwiftQuest.PanelSpansAllWorlds`.
- **A quest with waypoints but no start or finish** makes `toPoint` throw. The
  message has already been cleared at that point (zwiftquest.js:112-114). The
  model returns `Rejected`, caches nothing and keeps the cleared message.
- JavaScript truthiness is modelled where it matters. A world id `0` counts as
  absent (zwiftquest.js:111, 124). An empty status message shows no banner
  (zwiftquest.js:86).

## Model

| member | source | states |
|---|---|---|
| Players.Score | zwiftquest.js:275-279 | the score fold never exceeds the number of waypoints |
| Players.ScoreCountsVisited | zwiftquest.js:275-279 | the score is exactly the number of visited waypoints whose role is not start |
| Players.ScoreMonotone | zwiftquest.js:275-279 | turning flags on, with nothing else changed, never lowers the score |
| Players.HasStarted | zwiftquest.js:271-273 | a player has started iff some waypoint of any role is visited |
| Players.ResetScore | zwiftquest.js:265-269 | after a reset the score is 0 and the player has not started; identity, history, `lastScore` and template fields are unchanged |
| Players.CarriedFlag | zwiftquest.js:260-261 | the carried flag is that of the first old entry at the same x, y whose role is unset or equal, and false when there is none |
| Players.Refresh | zwiftquest.js:257-263 | the refreshed list is the template (length, order, fields), each flag carried over from the first matching old entry |
| Players.RefreshWaypoints | zwiftquest.js:257-263 | on a player, the waypoint list becomes the template with each flag taken from the first old entry at the same x,y whose role is unset or equal; identity, history and lastScore are kept |
| Players.RefreshWithOwnTemplate | zwiftquest.js:257-263 | refreshing with the player's own template keeps every flag, when no entry can be taken for a later one |
| Players.RefreshIdempotent | zwiftquest.js:257-263 | for a template in which no entry can be taken for a later one, refreshing twice equals refreshing once |
| Players.RefreshDisjoint | zwiftquest.js:257-263 | a template sharing no coordinates with the old entries starts all unvisited |
| Players.SharedSpotLosesStartFlag | zwiftquest.js:260 | a role-less entry listed first at the start's spot is taken for the start, so the start's flag is lost |
| Players.SharedFinishSpotGainsFlag | zwiftquest.js:257-263 | on a quest laid out start first and finish last, an ordinary waypoint at the finish's spot is taken for the finish, so refreshing with the player's own template turns the finish on while another ordinary waypoint is unvisited |
| Players.NewPlayer | zwiftquest.js:214-222 | a new player takes the sample's identity, has no history and no waypoints, `lastScore` is the creation time, and it has not started |
| Players.NewPlayerStartsUnvisited | zwiftquest.js:167-175 | a player first seen, rebound to the template, has every flag off, has not started and scores 0 |
| Visitation.Enabled | zwiftquest.js:246-255 | start always enabled; ordinary iff every start is visited; finish iff every role-less waypoint is visited |
| Visitation.OrdinaryEnabledWithoutStart | zwiftquest.js:253 | without a start waypoint, ordinary waypoints are always enabled |
| Visitation.Remember | zwiftquest.js:239-242 | the new sample is last, the rest is the newest part of the old history, and the history never grows past 3 |
| Visitation.VisitFrom | zwiftquest.js:229-237 | the in-place loop: each entry ends visited iff it was, or it was enabled on the list as updated so far and the detector reported a visit; earlier entries are untouched, flags are never cleared; `lastScore` moves only with a new visit |
| Visitation.NewestVisitTime | zwiftquest.js:229-237 | after the loop, `lastScore` is the time the detector reported for the last waypoint the loop turned on |
| Visitation.Moved | zwiftquest.js:229-242 | a moving sample runs the waypoint loop over the whole list and then joins the history: each flag ends on iff it was on, or the waypoint was enabled on the list as updated so far and the detector reported a visit; `lastScore` changes only with a new visit |
| Visitation.UpdatePosition | zwiftquest.js:224-244 | a repeat of the last sample's x, y changes nothing; otherwise the loop runs and the sample joins the history, which stays at most 3 long; identity and template kept, flags only turned on; `lastScore` changes only with a new visit; a newly visited finish means every role-less waypoint is visited and a newly visited role-less waypoint means every start is visited; the score never drops and a started player stays started |
| Visitation.UpdateRecordsVisitTime | zwiftquest.js:224-244 | after an update, `lastScore` is the time the detector reported for the last waypoint the update turned on |
| Visitation.FoldKeepsGate | zwiftquest.js:229-255 | any list produced the way the loop produces it obeys the ordering gate: finish only after every role-less waypoint, role-less only after every start |
| Visitation.FlagsOnKeepProgress | zwiftquest.js:224-279 | turning flags on over the same template never lowers the score and never un-starts a player |
| Visitation.NewVisitsAreReported | zwiftquest.js:230-235 | a newly visited waypoint was reported by the crossing detector |
| QuestPayload.Layout | zwiftquest.js:113-121 | an accepted quest becomes start, the ordinary waypoints in source order without a role, then finish: length is the waypoint count plus 2 |
| QuestPayload.ToPoint | zwiftquest.js:133-143 | a point keeps the source's name, takes the role given, and sits at the world's mapped coordinates of its latitude and longitude |
| QuestPayload.Load | zwiftquest.js:105-131 | the per-world quest or the flat payload is used; an accepted quest clears the message and is laid out (or rejected without a start or finish); a quest that is not accepted yields [] and the message names the world the quest names when that id is truthy, else says the requested world has no quest |
| QuestPayload.FailedDownloadLoadsNothing | zwiftquest.js:124-129 | the empty object of a failed download yields [] and says the requested world has no quest |
| QuestPayload.OtherWorldLoadsNothing | zwiftquest.js:124-126 | a flat quest naming another world yields [] and names that world |
| Leaderboard.Insert | zwiftquest.js:78-84 | inserting into a ranked list keeps it ranked and adds exactly the entry |
| Leaderboard.Sort | zwiftquest.js:78-84 | the sorted scores are a permutation, by score descending and then `lastScore` ascending |
| Leaderboard.Compare | zwiftquest.js:78-84 | the comparator is at most 0 exactly when the first entry may come first (higher score, or equal score reached no later), and at least 0 exactly when the second may |
| Leaderboard.StartedEntries | zwiftquest.js:70-77 | the entries are exactly those of the players who have started |
| Leaderboard.StartedEntriesCount | zwiftquest.js:70-77 | there is one entry per started player: the list is as long as the set of started positions |
| Leaderboard.InfoPanel | zwiftquest.js:69-99 | `scores` holds exactly the started players, ranked; it is null iff nobody started, which is exactly when `showWaypoints` is true; a banner iff the message is set |
| PlayerStore.Lookup | zwiftquest.js:167 | a player is found iff its key is stored, and it is the one stored under the key |
| PlayerStore.Put | zwiftquest.js:168-170 | after storing, the key holds the player, every other key is unchanged, keys stay distinct and a new key goes last |
| PlayerStore.ResetAll | zwiftquest.js:206-210 | every cached player is reset: each slot holds its old player after `resetScore`, so nobody has started and scores are 0; keys, histories and templates are unchanged |
| ZwiftQuest.ResetScores | zwiftquest.js:206-210 | the reset reaches every cached player, whatever the world: each slot keeps its key and holds `resetScore` of its old player (identity, history, lastScore and template kept); the quest cache is left alone |
| ZwiftQuest.CheckPendingEvent | zwiftquest.js:186-204 | with a schedule and an answered lookup, pending iff the event has a start and now is strictly inside the 10 minutes before it, and pending resets every cached player; without a schedule, or when the lookup was rejected or has not answered, nothing changes and an old pending flag stays |
| ZwiftQuest.Sample | zwiftquest.js:167-178 | the player one sample leaves behind is the stored rider, or a new one from the sample, with identity kept and bound to the template; while an event is pending, history and lastScore are untouched |
| ZwiftQuest.SampleKeepsProgress | zwiftquest.js:176-178 | after a sample the rider scores at least what the refreshed flags score, and a rider who had started stays started |
| ZwiftQuest.Observe | zwiftquest.js:165-179 | the sample's player ends as the stored one (or a new one) rebound to the template and, unless an event is pending, moved by `updatePosition`; other keys are unchanged; a new key goes last; while pending, histories are untouched and reset players stay reset |
| ZwiftQuest.ApplyPositions | zwiftquest.js:164-180 | the stored keys keep their order and every sampled rider is stored afterwards |
| ZwiftQuest.ApplyKeys | zwiftquest.js:165-171 | after the positions are applied, exactly the old keys plus the sampled riders' keys are stored |
| ZwiftQuest.ApplyLeavesUnsampled | zwiftquest.js:164-180 | a player whose key no sample produces is left exactly as it was |
| ZwiftQuest.ApplyBindsTemplate | zwiftquest.js:175 | every sampled player ends bound to the current quest template |
| ZwiftQuest.ApplyWhilePending | zwiftquest.js:176-178 | while an event is pending no history moves, and players that were all reset stay reset |
| ZwiftQuest.ApplySampleOnce | zwiftquest.js:164-180 | a rider sampled once in the pass ends as that sample makes it of the player stored before the pass |
| ZwiftQuest.Pass | zwiftquest.js:161-183 | a pass stamps the poll time and otherwise leaves the quest as the event check left it (world, message, rider feed, schedule and pending flag); it keeps the quest cache, stores every sampled rider bound to the template, and stores no other key; under any pending flag, a stale one included, no history moves; inside an answered warm-up every player is reset |
| ZwiftQuest.PassLeavesOtherWorlds | zwiftquest.js:164-180 | a pass changes a player no sample names, in particular every player of another world, only through the event reset |
| ZwiftQuest.PassMovesSampledRiders | zwiftquest.js:164-180 | outside the warm-up, each rider sampled once ends as `updatePosition` of its stored player rebound to the template |
| ZwiftQuest.UpdateState | zwiftquest.js:157-184 | a pass runs only with a rider feed and no earlier pass or one more than 2500 ms old; otherwise nothing changes; the world, message and quest cache are kept either way |
| ZwiftQuest.NewQuest | zwiftquest.js:31-39 | a fresh instance has no message and no pending event, and a first pass is due at any time iff there is a rider feed |
| ZwiftQuest.Get | zwiftquest.js:53-67 | a cached list, even empty, is served and `updateState` runs with it; on a miss the loaded list is cached whatever it is, the message is set, and `updateState` runs with it; a rejected load caches nothing and runs no pass |
| ZwiftQuest.FailedDownloadIsCached | zwiftquest.js:53-67 | after a failed download, the world's list is [] and every later `get` serves [] whatever the source says |
| ZwiftQuest.PollThrottled | zwiftquest.js:161-183 | a second pass within 2500 ms of one that ran changes nothing |
| ZwiftQuest.WarmUpFreezesScores | zwiftquest.js:186-198 | an event starting within 10 minutes makes the event pending and leaves every cached player at score 0 |
| ZwiftQuest.Info | zwiftquest.js:69-99 | the instance's panel lists scores iff some cached player, of any world, has started, ranked; the list holds each started player's entry exactly once per cache slot (a permutation of the started entries); waypoints are shown iff no scores; a banner iff the message is set |
| ZwiftQuest.PanelSpansAllWorlds | zwiftquest.js:69-77 | any started player in the cache, of any world, is listed on the leaderboard |
| Scenarios.Step | zwiftquest.js:224-255 | on a start/ordinary/finish quest, a sample on a waypoint visits it only when the gate allows |
| Scenarios.FinishBeforeWaypointIsIgnored | zwiftquest.js:224-255 | crossing the finish before the ordinary waypoint does not count; after the ordinary waypoint, crossing it again does |
| Scenarios.ScoresAlongTheRun | zwiftquest.js:224-279 | along that run the score is 0 after the ignored finish, 1 after the ordinary waypoint, and 2 after the finish is crossed again |

## Left out

- The HTTP download (`downloadQuest`, zwiftquest.js:145-155) is I/O. Its result is the `Payload` input; a failure is the empty object `FailedDownload`.
- NodeCache expiry, `ttl` refreshes and background sweeps (zwiftquest.js:8-11, 172) are wall-clock eviction. Both caches are plain values that never lose entries.
- The coordinate transform `mapLatLong` and the float arithmetic of `toPoint` (zwiftquest.js:133-143) are foreign and floating point. They become an abstract map to integer x, y. Latitude, longitude and coordinates are integers.
- The display fields `rotate`, `size` and `image`, and the static `credit`/`details` link, are not modelled.
- The crossing geometry `checkVisited` is foreign code. It is the `Crossing` parameter, returning a visit time or nothing.
- `Events.findMatchingEvent`, date parsing and promise timing (zwiftquest.js:164-202) are asynchronous I/O. One call takes one `now`. The lookup's outcome is applied before the positions; a lookup that settles later is the next due pass's `Unanswered` or `Answered` input, since a throttled call ignores it. An absent or unparseable start is `None`.
- `initialiseRiderProvider` (zwiftquest.js:41-51) is login plumbing. Its effect is the two flags `riderFeed` and `events` of `QuestState`.
- The unused `distance` helper (zwiftquest.js:282) and settings.js (static map configuration) are not modelled.
- Concurrency between overlapping calls is not modelled: each call runs to completion.
- Cache ids `world-<w>-player-<id>` are modelled as the pair (world, rider id). World and rider ids are integers.
- Leaderboard.Sort: the sort is stable by construction, but the contract does not state the order of entries that tie on both score and `lastScore`.
- Players.RefreshWithOwnTemplate: is proved only for templates where no entry can be taken for a later one. Without that, refreshing with the own template can lose or gain a flag (`Players.SharedSpotLosesStartFlag`, `Players.SharedFinishSpotGainsFlag`). So the ordering gate that `updatePosition` keeps is not kept across a poll pass's refresh.
- Players.RefreshIdempotent: is proved only for such templates too; with loose matching a second refresh can change flags again.
- ZwiftQuest.PassMovesSampledRiders: covers riders sampled once per pass. A rider sampled twice in one feed is moved twice, which the per-sample contract of `ZwiftQuest.Observe` describes step by step.

=== FILE: leaderboard.dfy ===
/** The leaderboard of `infoPanel`: the players who have started, ranked by
    score, earlier `lastScore` first among equal scores, and the status banner. */
module Leaderboard {
  import opened Wrappers
  import opened Players

  datatype Rider = Rider(id: int, firstName: string, lastName: string)

  datatype Entry = Entry(rider: Rider, score: nat, lastScore: int)

  /** A `banner` message list holding one text. */
  datatype Banner = Banner(list: seq<string>)

  datatype Panel = Panel(scores: Option<seq<Entry>>, showWaypoints: bool, messages: Option<Banner>)

  function EntryOf(p: Player): (r: Entry)
  {
    Entry(Rider(p.id, p.firstName, p.lastName), Score(p.waypoints), p.lastScore)
  }

  /** The sort comparator: negative or zero exactly when `a` may come before `b`. */
  function Compare(a: Entry, b: Entry): (r: int)
    ensures r <= 0 <==> Before(a, b)
    ensures r >= 0 <==> Before(b, a)
  {
    var result := b.score - a.score;
    if result == 0 then a.lastScore - b.lastScore else result
  }

  /** `a` may be listed before `b`: a higher score, or an equal score reached no later. */
  predicate Before(a: Entry, b: Entry)
  {
    a.score > b.score || (a.score == b.score && a.lastScore <= b.lastScore)
  }

  /** Ranked: every entry may be listed before every later one. */
  predicate Ranked(s: seq<Entry>)
  {
    forall i, j :: 0 <= i < j < |s| ==> Before(s[i], s[j])
  }

  lemma RankedCons(x: Entry, rest: seq<Entry>)
    requires Ranked(rest)
    requires forall i :: 0 <= i < |rest| ==> Before(x, rest[i])
    ensures Ranked([x] + rest)
  {
    var s := [x] + rest;
    forall i, j | 0 <= i < j < |s| ensures Before(s[i], s[j]) {
      if i > 0 {
        assert s[i] == rest[i - 1] && s[j] == rest[j - 1];
      } else {
        assert s[j] == rest[j - 1];
      }
    }
  }

  /** Insert `e` before the first entry it need not follow. */
  function Insert(e: Entry, s: seq<Entry>): (r: seq<Entry>)
    requires Ranked(s)
    ensures Ranked(r)
    ensures multiset(r) == multiset(s) + multiset{e}
    decreases |s|
  {
    if |s| == 0 then [e]
    else if Compare(e, s[0]) <= 0 then
      RankedCons(e, s);
      [e] + s
    else
      var rest := Insert(e, s[1..]);
      assert multiset(s) == multiset{s[0]} + multiset(s[1..]) by {
        assert s == [s[0]] + s[1..];
      }
      forall i | 0 <= i < |rest| ensures Before(s[0], rest[i]) {
        assert rest[i] in multiset(rest);
        if rest[i] != e {
          assert rest[i] in s[1..];
          var j :| 0 <= j < |s[1..]| && s[1..][j] == rest[i];
          assert s[j + 1] == rest[i];
        }
      }
      RankedCons(s[0], rest);
      [s[0]] + rest
  }

  /** The stable sort with `Compare`. */
  function Sort(s: seq<Entry>): (r: seq<Entry>)
    ensures Ranked(r)
    ensures multiset(r) == multiset(s)
    decreases |s|
  {
    if |s| == 0 then []
    else
      assert s == [s[0]] + s[1..];
      Insert(s[0], Sort(s[1..]))
  }

  /** The positions in the cache of the players who have started. */
  function StartedIndices(players: seq<Player>): (r: set<nat>)
  {
    set i: nat | i < |players| && HasStarted(players[i])
  }

  /** The entries of the players who have started, in cache order. */
  function StartedEntries(players: seq<Player>): (r: seq<Entry>)
    ensures forall e :: e in r <==> exists p :: p in players && HasStarted(p) && e == EntryOf(p)
    decreases |players|
  {
    if |players| == 0 then []
    else
      var n := |players| - 1;
      var rest := StartedEntries(players[..n]);
      assert players == players[..n] + [players[n]];
      if HasStarted(players[n]) then rest + [EntryOf(players[n])] else rest
  }

  /** One entry per started player: no player is listed twice. */
  lemma {:induction false} StartedEntriesCount(players: seq<Player>)
    ensures |StartedEntries(players)| == |StartedIndices(players)|
    decreases |players|
  {
    if |players| > 0 {
      var n := |players| - 1;
      StartedEntriesCount(players[..n]);
      StartedIndicesSnoc(players);
    }
  }

  /** The started positions of a list are those of its front, plus the last
      position when that player has started. */
  lemma StartedIndicesSnoc(players: seq<Player>)
    requires |players| > 0
    ensures var n := |players| - 1;
      |StartedIndices(players)| == |StartedIndices(players[..n])| + if HasStarted(players[n]) then 1 else 0
  {
    var n := |players| - 1;
    var front := players[..n];
    var last: set<nat> := if HasStarted(players[n]) then {n} else {};
    var all := StartedIndices(players);
    var before := StartedIndices(front);
    assert all <= before + last by {
      forall i: nat | i in all ensures i in before + last {
        if i < n {
          assert front[i] == players[i];
        }
      }
    }
    assert before + last <= all by {
      forall i: nat | i in before ensures i in all {
        assert front[i] == players[i];
      }
    }
    assert all == before + last;
    assert StartedIndices(front) !! last;
  }

  /** A status message is shown only when set and non-empty. */
  predicate Shown(message: Option<string>)
  {
    message.Some? && message.value != ""
  }

  /** `infoPanel` over the cached players, in cache order. `scores` holds
      exactly the started players' entries, ranked, and is absent when nobody
      has started, which is exactly when waypoints are shown instead. */
  function InfoPanel(players: seq<Player>, globalMessage: Option<string>): (r: Panel)
    ensures r.scores.None? <==> forall p :: p in players ==> !HasStarted(p)
    ensures r.showWaypoints <==> r.scores.None?
    ensures r.scores.Some? ==> Ranked(r.scores.value)
    ensures r.scores.Some? ==> forall e :: e in r.scores.value <==>
      exists p :: p in players && HasStarted(p) && e == EntryOf(p)
    ensures r.scores.Some? ==> multiset(r.scores.value) == multiset(StartedEntries(players))
    ensures r.messages.Some? <==> Shown(globalMessage)
    ensures r.messages.Some? ==> r.messages.value.list == [globalMessage.value]
  {
    var scores := Sort(StartedEntries(players));
    assert forall e :: e in scores <==> e in StartedEntries(players) by {
      assert forall e :: e in scores <==> e in multiset(scores);
      assert forall e :: e in StartedEntries(players) <==> e in multiset(StartedEntries(players));
    }
    assert |scores| == 0 <==> forall p :: p in players ==> !HasStarted(p) by {
      assert forall p :: p in players && HasStarted(p) ==> EntryOf(p) in scores;
      if |scores| > 0 {
        assert scores[0] in scores;
      }
    }
    var messages := if Shown(globalMessage) then Some(Banner([globalMessage.value])) else None;
    Panel(if |scores| > 0 then Some(scores) else None, |scores| == 0, messages)
  }
}

=== FILE: player_store.dfy ===
/** The player cache: players keyed by world and rider id, listed in the order
    the keys were first stored (the order `keys()` reports them in). */
module PlayerStore {
  import opened Wrappers
  import opened Seqs
  import opened Waypoints
  import opened Players

  /** Stands for the cache id `world-<world>-player-<rider>`. */
  datatype PlayerKey = PlayerKey(world: int, rider: int)

  datatype Slot = Slot(key: PlayerKey, player: Player)

  predicate DistinctKeys(s: seq<Slot>)
  {
    forall i, j :: 0 <= i < j < |s| ==> s[i].key != s[j].key
  }

  /** A cache holds each key at most once. */
  type Store = s: seq<Slot> | DistinctKeys(s)

  predicate Has(s: Store, k: PlayerKey)
  {
    exists i :: 0 <= i < |s| && s[i].key == k
  }

  /** `get`: the player stored under `k`, if any. */
  function Lookup(s: Store, k: PlayerKey): (r: Option<Player>)
    ensures r.Some? <==> Has(s, k)
    ensures r.Some? ==> exists i :: 0 <= i < |s| && s[i] == Slot(k, r.value)
    ensures forall i :: 0 <= i < |s| && s[i].key == k ==> r == Some(s[i].player)
  {
    match FindIndex(s, (slot: Slot) => slot.key == k)
    case Some(i) => Some(s[i].player)
    case None => None
  }

  /** `set`: replace the player under `k` in place, or append a new key. */
  function Put(s: Store, k: PlayerKey, p: Player): (r: Store)
    ensures Lookup(r, k) == Some(p)
    ensures forall k' :: k' != k ==> Lookup(r, k') == Lookup(s, k')
    ensures forall k' :: Has(r, k') <==> Has(s, k') || k' == k
    ensures |r| == if Has(s, k) then |s| else |s| + 1
    ensures forall i :: 0 <= i < |s| ==> r[i].key == s[i].key
    ensures forall i :: 0 <= i < |r| && r[i].key != k ==> i < |s| && r[i] == s[i]
    ensures forall i :: 0 <= i < |r| && r[i].key == k ==> r[i].player == p
  {
    match FindIndex(s, (slot: Slot) => slot.key == k)
    case Some(i) =>
      var r: seq<Slot> := s[i := Slot(k, p)];
      assert forall j :: 0 <= j < |s| ==> r[j].key == s[j].key;
      SameOtherKeys(s, r, k);
      r
    case None =>
      var r: seq<Slot> := s + [Slot(k, p)];
      assert forall j :: 0 <= j < |s| ==> r[j] == s[j];
      assert r[|s|].key == k;
      assert DistinctKeys(r);
      SameOtherKeys(s, r, k);
      r
  }

  /** Two distinct-key stores agreeing on every slot whose key is not `k`,
      with `k` only in extra slots, agree on every other key. */
  lemma SameOtherKeys(s: Store, r: Store, k: PlayerKey)
    requires |s| <= |r|
    requires forall j :: 0 <= j < |s| && s[j].key != k ==> r[j] == s[j]
    requires forall j :: 0 <= j < |s| ==> r[j].key == s[j].key
    requires forall j :: |s| <= j < |r| ==> r[j].key == k
    ensures forall k' :: k' != k ==> Lookup(r, k') == Lookup(s, k')
  {
    forall k' | k' != k ensures Lookup(r, k') == Lookup(s, k') {
      if Has(s, k') {
        var j :| 0 <= j < |s| && s[j].key == k';
        assert r[j] == s[j];
      }
    }
  }

  /** The cached players, in key order. */
  function Cached(s: Store): (r: seq<Player>)
    ensures |r| == |s|
    ensures forall i :: 0 <= i < |s| ==> r[i] == s[i].player
  {
    seq(|s|, i requires 0 <= i < |s| => s[i].player)
  }

  /** Nobody in the store has a visited waypoint. */
  predicate AllReset(s: Store)
  {
    forall i :: 0 <= i < |s| ==> !HasStarted(s[i].player)
  }

  /** `resetScores`: `resetScore` on every cached player, of every world. */
  function ResetAll(s: Store): (r: Store)
    ensures |r| == |s|
    ensures forall i :: 0 <= i < |s| ==> r[i].key == s[i].key
    ensures forall i :: 0 <= i < |s| ==> r[i].player == ResetScore(s[i].player)
    ensures forall i :: 0 <= i < |s| ==> r[i].player.positions == s[i].player.positions
    ensures forall i :: 0 <= i < |s| ==> Template(r[i].player.waypoints) == Template(s[i].player.waypoints)
    ensures forall i :: 0 <= i < |s| ==> Score(r[i].player.waypoints) == 0
    ensures AllReset(r)
  {
    var r := seq(|s|, i requires 0 <= i < |s| => Slot(s[i].key, ResetScore(s[i].player)));
    assert forall i :: 0 <= i < |s| ==> r[i].key == s[i].key;
    r
  }
}

=== FILE: players.dfy ===
/** The per-player state of the `Player` class: identity, a short position
    history, the player's copy of the quest's waypoints and the time of the
    most recent scoring visit. */
module Players {
  import opened Wrappers
  import opened Seqs
  import opened Waypoints

  /** The position history keeps at most this many samples. */
  const HistoryCapacity: nat := 3

  datatype Player = Player(
    id: int,
    firstName: string,
    lastName: string,
    positions: seq<Position>,
    waypoints: seq<PlayerWaypoint>,
    lastScore: int)

  /** A player first seen in `pos`; `lastScore` starts at the creation time. */
  function NewPlayer(pos: Position, now: int): (r: Player)
    ensures r.id == pos.riderId && r.firstName == pos.firstName && r.lastName == pos.lastName
    ensures r.positions == [] && r.waypoints == [] && r.lastScore == now
    ensures Score(r.waypoints) == 0 && !HasStarted(r)
  {
    Player(pos.riderId, pos.firstName, pos.lastName, [], [], now)
  }

  // ---------------------------------------------------------------- score

  /** A waypoint contributes to the score when visited, unless it is the start. */
  predicate Counts(w: PlayerWaypoint)
  {
    w.visited && w.point.role != Start
  }

  /** `getScore`: a left fold adding one per counting waypoint. */
  function Score(wps: seq<PlayerWaypoint>): (r: nat)
    ensures r <= |wps|
    decreases |wps|
  {
    if |wps| == 0 then 0
    else Score(wps[..|wps| - 1]) + (if Counts(wps[|wps| - 1]) then 1 else 0)
  }

  /** The positions of the waypoints that count, an independent description of the score. */
  function CountedIndices(wps: seq<PlayerWaypoint>): (r: set<nat>)
  {
    set i: nat | i < |wps| && Counts(wps[i])
  }

  /** The fold computes exactly the number of visited non-start waypoints. */
  lemma {:induction false} ScoreCountsVisited(wps: seq<PlayerWaypoint>)
    ensures Score(wps) == |CountedIndices(wps)|
    decreases |wps|
  {
    if |wps| > 0 {
      var n := |wps| - 1;
      var front := wps[..n];
      ScoreCountsVisited(front);
      var last: set<nat> := if Counts(wps[n]) then {n} else {};
      assert CountedIndices(wps) == CountedIndices(front) + last by {
        forall i: nat | i < n ensures front[i] == wps[i] { }
      }
      assert CountedIndices(front) !! last;
    }
  }

  /** A list without visited waypoints scores zero. */
  lemma {:induction false} ScoreOfUnvisited(wps: seq<PlayerWaypoint>)
    requires forall i :: 0 <= i < |wps| ==> !wps[i].visited
    ensures Score(wps) == 0
    decreases |wps|
  {
    if |wps| > 0 {
      ScoreOfUnvisited(wps[..|wps| - 1]);
    }
  }

  /** Turning flags on, and nothing else, never lowers the score. */
  lemma {:induction false} ScoreMonotone(a: seq<PlayerWaypoint>, b: seq<PlayerWaypoint>)
    requires |a| == |b|
    requires forall i :: 0 <= i < |a| ==> a[i].point == b[i].point
    requires forall i :: 0 <= i < |a| && a[i].visited ==> b[i].visited
    ensures Score(a) <= Score(b)
    decreases |a|
  {
    if |a| > 0 {
      ScoreMonotone(a[..|a| - 1], b[..|b| - 1]);
    }
  }

  /** `hasStarted`: some waypoint, of any role, is visited. */
  function HasStarted(p: Player): (r: bool)
    ensures r <==> exists i :: 0 <= i < |p.waypoints| && p.waypoints[i].visited
  {
    FindIndex(p.waypoints, (w: PlayerWaypoint) => w.visited).Some?
  }

  /** `resetScore`: every flag cleared; history, identity, `lastScore` and the
      template fields of the waypoints stay as they were. */
  function ResetScore(p: Player): (r: Player)
    ensures r.id == p.id && r.firstName == p.firstName && r.lastName == p.lastName
    ensures r.positions == p.positions && r.lastScore == p.lastScore
    ensures Template(r.waypoints) == Template(p.waypoints)
    ensures Score(r.waypoints) == 0 && !HasStarted(r)
  {
    var cleared := seq(|p.waypoints|, i requires 0 <= i < |p.waypoints| => p.waypoints[i].(visited := false));
    ScoreOfUnvisited(cleared);
    p.(waypoints := cleared)
  }

  // -------------------------------------------------------------- refresh

  /** An existing waypoint at `a` is taken for the template waypoint `t`: same
      coordinates, and either `a` has no role or the same role as `t`. */
  predicate Covers(a: Waypoint, t: Waypoint)
  {
    a.x == t.x && a.y == t.y && (a.role == Unset || a.role == t.role)
  }

  /** `existing[j]` is the first entry taken for `t`. */
  predicate FirstMatch(existing: seq<PlayerWaypoint>, t: Waypoint, j: nat)
  {
    && j < |existing|
    && Covers(existing[j].point, t)
    && forall i :: 0 <= i < j ==> !Covers(existing[i].point, t)
  }

  lemma FirstMatchUnique(existing: seq<PlayerWaypoint>, t: Waypoint, j: nat, k: nat)
    requires FirstMatch(existing, t, j) && FirstMatch(existing, t, k)
    ensures j == k
  {
  }

  /** The flag carried over for `t`: that of its first match, false without one. */
  function CarriedFlag(existing: seq<PlayerWaypoint>, t: Waypoint): (r: bool)
    ensures r <==> exists j: nat :: FirstMatch(existing, t, j) && existing[j].visited
  {
    match FindIndex(existing, (w: PlayerWaypoint) => Covers(w.point, t))
    case Some(j) =>
      assert FirstMatch(existing, t, j);
      existing[j].visited
    case None => false
  }

  /** `refreshWaypoints`: rebind to `template`, keeping its length, order and
      fields, and carry each flag over from the first matching old entry. */
  function Refresh(existing: seq<PlayerWaypoint>, template: seq<Waypoint>): (r: seq<PlayerWaypoint>)
    ensures Template(r) == template
    ensures forall k :: 0 <= k < |template| ==>
      (r[k].visited <==> exists j: nat :: FirstMatch(existing, template[k], j) && existing[j].visited)
  {
    seq(|template|, k requires 0 <= k < |template| => PlayerWaypoint(template[k], CarriedFlag(existing, template[k])))
  }

  /** `refreshWaypoints` on a player: only the waypoint list changes. */
  function RefreshWaypoints(p: Player, template: seq<Waypoint>): (r: Player)
    ensures r.id == p.id && r.firstName == p.firstName && r.lastName == p.lastName
    ensures r.positions == p.positions && r.lastScore == p.lastScore
    ensures r.waypoints == Refresh(p.waypoints, template)
    ensures Template(r.waypoints) == template
    ensures forall k :: 0 <= k < |template| ==>
      (r.waypoints[k].visited <==> exists j: nat :: FirstMatch(p.waypoints, template[k], j) && p.waypoints[j].visited)
  {
    p.(waypoints := Refresh(p.waypoints, template))
  }

  /** A player first seen is bound to the template with every flag off. */
  lemma NewPlayerStartsUnvisited(pos: Position, now: int, template: seq<Waypoint>)
    ensures var r := RefreshWaypoints(NewPlayer(pos, now), template);
      && Template(r.waypoints) == template
      && (forall k :: 0 <= k < |r.waypoints| ==> !r.waypoints[k].visited)
      && !HasStarted(r) && Score(r.waypoints) == 0
  {
    var r := RefreshWaypoints(NewPlayer(pos, now), template);
    ScoreOfUnvisited(r.waypoints);
  }

  /** No waypoint of `t` would be taken for a later one: no shared coordinates
      between entries that `Covers` could confuse. */
  predicate Distinguishable(t: seq<Waypoint>)
  {
    forall i, k :: 0 <= i < k < |t| ==> !Covers(t[i], t[k])
  }

  /** Refreshing with the player's own template keeps every flag. */
  lemma RefreshWithOwnTemplate(wps: seq<PlayerWaypoint>)
    requires Distinguishable(Template(wps))
    ensures Refresh(wps, Template(wps)) == wps
  {
    var t := Template(wps);
    var r := Refresh(wps, t);
    forall k | 0 <= k < |wps|
      ensures r[k] == wps[k]
    {
      assert FirstMatch(wps, t[k], k);
      forall j: nat | FirstMatch(wps, t[k], j) ensures j == k {
        FirstMatchUnique(wps, t[k], j, k);
      }
    }
  }

  /** Refreshing twice with the same template is the same as refreshing once. */
  lemma RefreshIdempotent(existing: seq<PlayerWaypoint>, template: seq<Waypoint>)
    requires Distinguishable(template)
    ensures Refresh(Refresh(existing, template), template) == Refresh(existing, template)
  {
    var once := Refresh(existing, template);
    assert Template(once) == template;
    RefreshWithOwnTemplate(once);
  }

  /** A template sharing no coordinates with the old entries starts unvisited. */
  lemma RefreshDisjoint(existing: seq<PlayerWaypoint>, template: seq<Waypoint>)
    requires forall j, k :: 0 <= j < |existing| && 0 <= k < |template| ==>
      existing[j].point.x != template[k].x || existing[j].point.y != template[k].y
    ensures forall k :: 0 <= k < |template| ==> !Refresh(existing, template)[k].visited
  {
  }

  /** A role-less entry is taken for a start waypoint at the same place, so a
      template whose start shares a spot with an ordinary waypoint listed before
      it loses the start's flag on refresh. */
  lemma SharedSpotLosesStartFlag()
    ensures var a := Waypoint("a", 0, 0, Unset);
            var s := Waypoint("s", 0, 0, Start);
            var wps := [PlayerWaypoint(a, false), PlayerWaypoint(s, true)];
            Refresh(wps, Template(wps))[1].visited == false
  {
    var a := Waypoint("a", 0, 0, Unset);
    var s := Waypoint("s", 0, 0, Start);
    var wps := [PlayerWaypoint(a, false), PlayerWaypoint(s, true)];
    assert FirstMatch(wps, s, 0);
  }

  /** On a quest laid out start first and finish last, an ordinary waypoint at
      the finish's spot is taken for the finish: refreshing with the player's
      own template turns the finish on while another ordinary waypoint is still
      unvisited. */
  lemma SharedFinishSpotGainsFlag()
    ensures var s := Waypoint("s", 0, 0, Start);
            var a := Waypoint("a", 5, 5, Unset);
            var b := Waypoint("b", 9, 9, Unset);
            var f := Waypoint("f", 5, 5, Finish);
            var wps := [PlayerWaypoint(s, true), PlayerWaypoint(a, true), PlayerWaypoint(b, false),
                        PlayerWaypoint(f, false)];
            var r := Refresh(wps, Template(wps));
            !wps[3].visited && r[3].visited && !r[2].visited
  {
    var s := Waypoint("s", 0, 0, Start);
    var a := Waypoint("a", 5, 5, Unset);
    var b := Waypoint("b", 9, 9, Unset);
    var f := Waypoint("f", 5, 5, Finish);
    var wps := [PlayerWaypoint(s, true), PlayerWaypoint(a, true), PlayerWaypoint(b, false),
                PlayerWaypoint(f, false)];
    assert Template(wps) == [s, a, b, f];
    assert FirstMatch(wps, f, 1);
    forall j: nat | FirstMatch(wps, b, j) ensures j == 2 {
      assert FirstMatch(wps, b, 2);
      FirstMatchUnique(wps, b, j, 2);
    }
  }
}

=== FILE: quest_payload.dfy ===
/** Interpreting the downloaded quest definition (`getFromZwiftQuest`,
    `toPoint`): pick the quest for this world and lay its waypoints out as
    start, ordinary waypoints in source order, finish. */
module QuestPayload {
  import opened Wrappers
  import opened Waypoints

  /** A waypoint as the quest source lists it, in geographic coordinates. */
  datatype RawPoint = RawPoint(name: string, lat: int, long: int)

  datatype Coord = Coord(x: int, y: int)

  /** The coordinate transform of a world, its fixed offset included; a black box. */
  type CoordinateMap = (int, RawPoint) -> Coord

  /** A quest object; every field may be absent. */
  datatype Quest = Quest(
    worldId: Option<int>,
    start: Option<RawPoint>,
    waypoints: Option<seq<RawPoint>>,
    finish: Option<RawPoint>)

  /** The downloaded object: an optional per-world wrapper `worlds`, and the
      quest fields at top level. */
  datatype Payload = Payload(worlds: map<int, Quest>, flat: Quest)

  /** What a failed download resolves to: the empty object. */
  const FailedDownload: Payload := Payload(map[], Quest(None, None, None, None))

  /** `world_names`; an unknown id prints as `undefined`. */
  function WorldName(id: int): (r: string)
  {
    if id == 1 then "Watopia"
    else if id == 2 then "Richmond"
    else if id == 3 then "London"
    else "undefined"
  }

  /** A world id counts only when present and non-zero (zero is falsy). */
  predicate Truthy(id: Option<int>)
  {
    id.Some? && id.value != 0
  }

  /** The per-world entry when the wrapper has one, else the top-level object. */
  function Selected(payload: Payload, worldId: int): (r: Quest)
  {
    if worldId in payload.worlds then payload.worlds[worldId] else payload.flat
  }

  /** The quest is taken: it lists waypoints and names no other world. */
  predicate Accepted(q: Quest, worldId: int)
  {
    q.waypoints.Some? && (!Truthy(q.worldId) || q.worldId == Some(worldId))
  }

  /** `toPoint`: the source's name, the role given, and the world's mapped
      coordinates of the raw point. */
  function ToPoint(worldId: int, raw: RawPoint, role: Role, mapper: CoordinateMap): (r: Waypoint)
    ensures r.name == raw.name && r.role == role
    ensures Coord(r.x, r.y) == mapper(worldId, raw)
  {
    var c := mapper(worldId, raw);
    Waypoint(raw.name, c.x, c.y, role)
  }

  /** `Rejected` stands for the exception `toPoint` raises on a missing start or finish. */
  datatype Outcome = Resolved(points: seq<Waypoint>) | Rejected

  /** The outcome together with the new value of the status message. */
  datatype Loaded = Loaded(outcome: Outcome, message: Option<string>)

  /** The shape of an accepted quest: one start first, one finish last,
      role-less waypoints between. */
  predicate WellFormed(points: seq<Waypoint>)
  {
    && |points| >= 2
    && points[0].role == Start
    && points[|points| - 1].role == Finish
    && forall k :: 0 < k < |points| - 1 ==> points[k].role == Unset
  }

  function Layout(worldId: int, start: RawPoint, middle: seq<RawPoint>, finish: RawPoint,
                  mapper: CoordinateMap): (r: seq<Waypoint>)
    ensures |r| == |middle| + 2
    ensures r[0] == ToPoint(worldId, start, Start, mapper)
    ensures r[|r| - 1] == ToPoint(worldId, finish, Finish, mapper)
    ensures forall k :: 0 <= k < |middle| ==> r[k + 1] == ToPoint(worldId, middle[k], Unset, mapper)
    ensures WellFormed(r)
  {
    [ToPoint(worldId, start, Start, mapper)]
    + seq(|middle|, k requires 0 <= k < |middle| => ToPoint(worldId, middle[k], Unset, mapper))
    + [ToPoint(worldId, finish, Finish, mapper)]
  }

  /** `getFromZwiftQuest` once the download has resolved to `payload`. An
      accepted quest clears the message and yields its waypoints, or is
      rejected when its start or finish is missing (the message is cleared
      first). Otherwise the result is empty and the message names the world
      the quest is in, or says this world has none. */
  function Load(worldId: int, payload: Payload, mapper: CoordinateMap): (r: Loaded)
    ensures var q := Selected(payload, worldId);
      Accepted(q, worldId) ==> r.message == None
    ensures var q := Selected(payload, worldId);
      Accepted(q, worldId) && q.start.Some? && q.finish.Some? ==>
        && r.outcome.Resolved?
        && WellFormed(r.outcome.points)
        && |r.outcome.points| == |q.waypoints.value| + 2
        && r.outcome.points[0] == ToPoint(worldId, q.start.value, Start, mapper)
        && r.outcome.points[|r.outcome.points| - 1] == ToPoint(worldId, q.finish.value, Finish, mapper)
        && forall k :: 0 <= k < |q.waypoints.value| ==>
             r.outcome.points[k + 1] == ToPoint(worldId, q.waypoints.value[k], Unset, mapper)
    ensures var q := Selected(payload, worldId);
      Accepted(q, worldId) && (q.start.None? || q.finish.None?) ==> r.outcome.Rejected?
    ensures var q := Selected(payload, worldId);
      !Accepted(q, worldId) && Truthy(q.worldId) ==>
        r == Loaded(Resolved([]), Some("ZwiftQuest is currently in " + WorldName(q.worldId.value)))
    ensures var q := Selected(payload, worldId);
      !Accepted(q, worldId) && !Truthy(q.worldId) ==>
        r == Loaded(Resolved([]), Some("ZwiftQuest is not currently in " + WorldName(worldId)))
  {
    var quest := Selected(payload, worldId);
    if Accepted(quest, worldId) then
      if quest.start.Some? && quest.finish.Some? then
        Loaded(Resolved(Layout(worldId, quest.start.value, quest.waypoints.value, quest.finish.value, mapper)), None)
      else
        Loaded(Rejected, None)
    else if Truthy(quest.worldId) then
      Loaded(Resolved([]), Some("ZwiftQuest is currently in " + WorldName(quest.worldId.value)))
    else
      Loaded(Resolved([]), Some("ZwiftQuest is not currently in " + WorldName(worldId)))
  }

  /** A failed download gives no waypoints and says this world has no quest. */
  lemma FailedDownloadLoadsNothing(worldId: int, mapper: CoordinateMap)
    ensures Load(worldId, FailedDownload, mapper)
         == Loaded(Resolved([]), Some("ZwiftQuest is not currently in " + WorldName(worldId)))
  {
  }

  /** A quest that names another world gives no waypoints and names that world. */
  lemma OtherWorldLoadsNothing(worldId: int, payload: Payload, mapper: CoordinateMap)
    requires worldId !in payload.worlds
    requires payload.flat.worldId.Some? && payload.flat.worldId.value !in {0, worldId}
    ensures Load(worldId, payload, mapper)
         == Loaded(Resolved([]), Some("ZwiftQuest is currently in " + WorldName(payload.flat.worldId.value)))
  {
  }
}

=== FILE: scenarios.dfy ===
/** Worked runs of the visitation engine on a three-waypoint quest
    A (start) - B - C (finish), with a crossing detector that reports a visit
    exactly when the sample sits on the waypoint. */
module Scenarios {
  import opened Wrappers
  import opened Waypoints
  import opened Players
  import opened Visitation

  const A := Waypoint("A", 0, 0, Start)
  const B := Waypoint("B", 10, 0, Unset)
  const C := Waypoint("C", 20, 0, Finish)

  function At(x: int): (r: Position)
  {
    Position(7, "Ann", "Rider", x, 0)
  }

  function OnSpot(pos: Position, history: seq<Position>, w: Waypoint): (r: Option<int>)
  {
    if pos.x == w.x && pos.y == w.y then Some(pos.x) else None
  }

  function Flags(a: bool, b: bool, c: bool): (r: seq<PlayerWaypoint>)
  {
    [PlayerWaypoint(A, a), PlayerWaypoint(B, b), PlayerWaypoint(C, c)]
  }

  /** The waypoint loop for one sample at `(x, 0)`. */
  function Loop(x: int, a: bool, b: bool, c: bool, history: seq<Position>, lastScore: int): (r: seq<PlayerWaypoint>)
  {
    VisitFrom(Flags(a, b, c), 0, At(x), history, OnSpot, lastScore).waypoints
  }

  lemma LoopShape(x: int, a: bool, b: bool, c: bool, history: seq<Position>, lastScore: int)
    ensures var r := Loop(x, a, b, c, history, lastScore);
      |r| == 3 && r[0].point == A && r[1].point == B && r[2].point == C
  {
    var r := Loop(x, a, b, c, history, lastScore);
    assert |Template(r)| == 3;
    assert Template(r) == [A, B, C];
  }

  /** B is taken when sat on once A is visited in the same loop. */
  lemma LoopSecond(x: int, a: bool, b: bool, c: bool, history: seq<Position>, lastScore: int)
    ensures var r := Loop(x, a, b, c, history, lastScore);
      r[1].visited == (b || (x == 10 && r[0].visited))
  {
    LoopShape(x, a, b, c, history, lastScore);
    var r := Loop(x, a, b, c, history, lastScore);
    GateOnQuest(Midway(r, Flags(a, b, c), 1));
  }

  /** C is taken when sat on once B is visited in the same loop. */
  lemma LoopThird(x: int, a: bool, b: bool, c: bool, history: seq<Position>, lastScore: int)
    ensures var r := Loop(x, a, b, c, history, lastScore);
      r[2].visited == (c || (x == 20 && r[1].visited))
  {
    LoopShape(x, a, b, c, history, lastScore);
    var r := Loop(x, a, b, c, history, lastScore);
    GateOnQuest(Midway(r, Flags(a, b, c), 2));
  }

  /** One sample at `(x, 0)`: A is taken when sat on; B when sat on once A is
      visited; C when sat on once B is visited. */
  lemma LoopStep(x: int, a: bool, b: bool, c: bool, history: seq<Position>, lastScore: int)
    ensures var a' := a || x == 0;
            var b' := b || (x == 10 && a');
            var c' := c || (x == 20 && b');
            Loop(x, a, b, c, history, lastScore) == Flags(a', b', c')
  {
    LoopShape(x, a, b, c, history, lastScore);
    LoopSecond(x, a, b, c, history, lastScore);
    LoopThird(x, a, b, c, history, lastScore);
    var r := Loop(x, a, b, c, history, lastScore);
    var a' := a || x == 0;
    assert r[0].visited == a';
    assert r == Flags(a', b || (x == 10 && a'), c || (x == 20 && r[1].visited));
  }

  /** On this quest, B is enabled iff A is visited, and C iff B is. */
  lemma GateOnQuest(m: seq<PlayerWaypoint>)
    requires |m| == 3 && m[0].point == A && m[1].point == B && m[2].point == C
    ensures Enabled(m, m[1]) <==> m[0].visited
    ensures Enabled(m, m[2]) <==> m[1].visited
  {
  }

  /** `updatePosition` with a moving sample at `(x, 0)` runs that loop. */
  lemma Step(p: Player, x: int, a: bool, b: bool, c: bool)
    requires p.waypoints == Flags(a, b, c)
    requires !Stationary(p.positions, At(x))
    ensures var a' := a || x == 0;
            var b' := b || (x == 10 && a');
            var c' := c || (x == 20 && b');
            UpdatePosition(p, At(x), OnSpot).waypoints == Flags(a', b', c')
  {
    LoopStep(x, a, b, c, p.positions, p.lastScore);
  }

  /** A moving sample becomes the last one stored. */
  lemma LastSample(p: Player, x: int)
    requires |p.positions| == 0 || p.positions[|p.positions| - 1].x != x
    ensures var r := UpdatePosition(p, At(x), OnSpot);
      |r.positions| > 0 && r.positions[|r.positions| - 1] == At(x)
  {
    assert !Stationary(p.positions, At(x));
  }

  lemma ScoreOfFlags(a: bool, b: bool, c: bool)
    ensures Score(Flags(a, b, c)) == (if b then 1 else 0) + (if c then 1 else 0)
  {
    var w := Flags(a, b, c);
    assert Score(w) == Score(w[..2]) + (if c then 1 else 0);
    assert w[..2][..1] == w[..1];
    assert Score(w[..2]) == Score(w[..1]) + (if b then 1 else 0);
    assert w[..1][..0] == [];
    assert Score(w[..1]) == Score([]);
  }

  /** Crossing the finish before the ordinary waypoint does not count; once
      the ordinary waypoint is crossed, crossing the finish again does. */
  lemma FinishBeforeWaypointIsIgnored(p0: Player)
    requires p0.waypoints == Refresh([], [A, B, C]) && p0.positions == []
    ensures var p1 := UpdatePosition(p0, At(0), OnSpot);
            var p2 := UpdatePosition(p1, At(20), OnSpot);
            var p3 := UpdatePosition(p2, At(10), OnSpot);
            var p4 := UpdatePosition(p3, At(5), OnSpot);
            var p5 := UpdatePosition(p4, At(20), OnSpot);
            && p2.waypoints == Flags(true, false, false)
            && p3.waypoints == Flags(true, true, false)
            && p5.waypoints == Flags(true, true, true)
  {
    assert p0.waypoints == Flags(false, false, false);
    Step(p0, 0, false, false, false);
    LastSample(p0, 0);
    var p1 := UpdatePosition(p0, At(0), OnSpot);
    Step(p1, 20, true, false, false);
    LastSample(p1, 20);
    var p2 := UpdatePosition(p1, At(20), OnSpot);
    Step(p2, 10, true, false, false);
    LastSample(p2, 10);
    var p3 := UpdatePosition(p2, At(10), OnSpot);
    Step(p3, 5, true, true, false);
    LastSample(p3, 5);
    var p4 := UpdatePosition(p3, At(5), OnSpot);
    Step(p4, 20, true, true, false);
  }

  /** The scores along that run: 0 after the ignored finish, then 1 once B is
      crossed, then 2 once the finish is crossed again. */
  lemma ScoresAlongTheRun(p0: Player)
    requires p0.waypoints == Refresh([], [A, B, C]) && p0.positions == []
    ensures var p1 := UpdatePosition(p0, At(0), OnSpot);
            var p2 := UpdatePosition(p1, At(20), OnSpot);
            var p3 := UpdatePosition(p2, At(10), OnSpot);
            var p4 := UpdatePosition(p3, At(5), OnSpot);
            var p5 := UpdatePosition(p4, At(20), OnSpot);
            && Score(p2.waypoints) == 0
            && Score(p3.waypoints) == 1
            && Score(p5.waypoints) == 2
  {
    FinishBeforeWaypointIsIgnored(p0);
    ScoreOfFlags(true, false, false);
    ScoreOfFlags(true, true, false);
    ScoreOfFlags(true, true, true);
  }
}

=== FILE: visitation.dfy ===
/** The visitation engine of the `Player` class: the ordering gate and the
    update run on every new position sample. */
module Visitation {
  import opened Wrappers
  import opened Seqs
  import opened Waypoints
  import opened Players

  /** The crossing detector, a black box: given the new sample, the history
      before it and a waypoint, it reports the visit time, or nothing. */
  type Crossing = (Position, seq<Position>, Waypoint) -> Option<int>

  /** `waypointEnabled`: the start always; an ordinary waypoint once no start is
      left unvisited; the finish once no ordinary waypoint is left unvisited. */
  function Enabled(wps: seq<PlayerWaypoint>, point: PlayerWaypoint): (r: bool)
    ensures point.point.role == Start ==> r
    ensures point.point.role == Unset ==>
      (r <==> forall j :: 0 <= j < |wps| && wps[j].point.role == Start ==> wps[j].visited)
    ensures point.point.role == Finish ==>
      (r <==> forall j :: 0 <= j < |wps| && wps[j].point.role == Unset ==> wps[j].visited)
  {
    match point.point.role
    case Start => true
    case Finish => FindIndex(wps, (p: PlayerWaypoint) => p.point.role == Unset && !p.visited).None?
    case Unset => FindIndex(wps, (p: PlayerWaypoint) => p.point.role == Start && !p.visited).None?
  }

  /** Without a start waypoint, ordinary waypoints are always enabled. */
  lemma OrdinaryEnabledWithoutStart(wps: seq<PlayerWaypoint>, point: PlayerWaypoint)
    requires forall j :: 0 <= j < |wps| ==> wps[j].point.role != Start
    requires point.point.role == Unset
    ensures Enabled(wps, point)
  {
  }

  /** The same (x, y) as the last stored sample: a stationary repeat. */
  predicate Stationary(history: seq<Position>, pos: Position)
  {
    |history| > 0 && history[|history| - 1].x == pos.x && history[|history| - 1].y == pos.y
  }

  /** Append `pos` to the history, dropping the oldest sample beyond capacity. */
  function Remember(history: seq<Position>, pos: Position): (r: seq<Position>)
    ensures 0 < |r| && r[|r| - 1] == pos
    ensures |r| == if |history| < HistoryCapacity then |history| + 1 else |history|
    ensures r[..|r| - 1] == history[|history| - (|r| - 1)..]
    ensures |history| <= HistoryCapacity ==> |r| <= HistoryCapacity
  {
    var grown := history + [pos];
    if |grown| > HistoryCapacity then grown[1..] else grown
  }

  /** The list as the in-place loop sees it at step `j`: entries before `j`
      already updated, the rest still as they were. */
  function Midway(done: seq<PlayerWaypoint>, orig: seq<PlayerWaypoint>, j: nat): (r: seq<PlayerWaypoint>)
    requires j <= |done| && j <= |orig|
  {
    done[..j] + orig[j..]
  }

  datatype Visit = Visit(waypoints: seq<PlayerWaypoint>, lastScore: int)

  /** `j` is the last waypoint the loop turned on: it was off before, is on
      after, and no later flag changed. */
  predicate NewestVisit(before: seq<PlayerWaypoint>, after: seq<PlayerWaypoint>, j: int)
  {
    && |before| == |after|
    && 0 <= j < |before|
    && !before[j].visited && after[j].visited
    && forall k :: j < k < |before| ==> after[k].visited == before[k].visited
  }

  /** The waypoint loop of `updatePosition` from index `i` on, as a left fold
      whose gate is re-evaluated on the list as updated so far. */
  function VisitFrom(wps: seq<PlayerWaypoint>, i: nat, pos: Position, history: seq<Position>,
                     check: Crossing, lastScore: int): (r: Visit)
    requires i <= |wps|
    ensures Template(r.waypoints) == Template(wps)
    ensures forall j :: 0 <= j < i ==> r.waypoints[j] == wps[j]
    ensures forall j :: 0 <= j < |wps| && wps[j].visited ==> r.waypoints[j].visited
    ensures forall j :: i <= j < |wps| ==>
      (r.waypoints[j].visited <==>
         wps[j].visited
         || (Enabled(Midway(r.waypoints, wps, j), wps[j]) && check(pos, history, wps[j].point).Some?))
    ensures (forall j :: i <= j < |wps| ==> r.waypoints[j].visited == wps[j].visited) ==> r.lastScore == lastScore
    decreases |wps| - i
  {
    if i == |wps| then Visit(wps, lastScore)
    else
      var point := wps[i];
      var hit := Enabled(wps, point) && !point.visited && check(pos, history, point.point).Some?;
      var next := if hit then wps[i := point.(visited := true)] else wps;
      var r := VisitFrom(next, i + 1, pos, history, check,
                         if hit then check(pos, history, point.point).value else lastScore);
      VisitStep(wps, i, next, r.waypoints, pos, history, check);
      r
  }

  /** `lastScore` after the loop is the time the detector reported for the
      last waypoint the loop turned on. */
  lemma {:induction false} NewestVisitTime(wps: seq<PlayerWaypoint>, i: nat, pos: Position, history: seq<Position>,
                                           check: Crossing, lastScore: int)
    requires i <= |wps|
    ensures var r := VisitFrom(wps, i, pos, history, check, lastScore);
      forall j :: i <= j && NewestVisit(wps, r.waypoints, j) ==>
        check(pos, history, wps[j].point).Some? && r.lastScore == check(pos, history, wps[j].point).value
    decreases |wps| - i
  {
    if i < |wps| {
      var hit := Enabled(wps, wps[i]) && !wps[i].visited && check(pos, history, wps[i].point).Some?;
      var next := if hit then wps[i := wps[i].(visited := true)] else wps;
      var later := if hit then check(pos, history, wps[i].point).value else lastScore;
      VisitFromUnfold(wps, i, pos, history, check, lastScore);
      var r := VisitFrom(next, i + 1, pos, history, check, later);
      NewestVisitTime(next, i + 1, pos, history, check, later);
      NewestStep(wps, i, hit, next, later, pos, history, check, lastScore);
    }
  }

  /** One step of the loop: the fold from `i` is the fold from `i + 1` on the
      list with entry `i` updated. */
  lemma VisitFromUnfold(wps: seq<PlayerWaypoint>, i: nat, pos: Position, history: seq<Position>,
                        check: Crossing, lastScore: int)
    requires i < |wps|
    ensures var hit := Enabled(wps, wps[i]) && !wps[i].visited && check(pos, history, wps[i].point).Some?;
      VisitFrom(wps, i, pos, history, check, lastScore)
        == VisitFrom(if hit then wps[i := wps[i].(visited := true)] else wps, i + 1, pos, history, check,
                     if hit then check(pos, history, wps[i].point).value else lastScore)
  {
  }

  /** One step of the fold for `lastScore`: the newest visit from `i + 1` on
      after step `i` is the newest from `i` on before it, and step `i` itself
      is the newest visit only when nothing later changed, in which case its
      time is the one kept. */
  lemma NewestStep(wps: seq<PlayerWaypoint>, i: nat, hit: bool, next: seq<PlayerWaypoint>, later: int,
                   pos: Position, history: seq<Position>, check: Crossing, lastScore: int)
    requires i < |wps|
    requires hit == (Enabled(wps, wps[i]) && !wps[i].visited && check(pos, history, wps[i].point).Some?)
    requires next == if hit then wps[i := wps[i].(visited := true)] else wps
    requires later == if hit then check(pos, history, wps[i].point).value else lastScore
    requires var r := VisitFrom(next, i + 1, pos, history, check, later);
      forall j :: i + 1 <= j && NewestVisit(next, r.waypoints, j) ==>
        check(pos, history, next[j].point).Some? && r.lastScore == check(pos, history, next[j].point).value
    ensures var r := VisitFrom(next, i + 1, pos, history, check, later);
      forall j :: i <= j && NewestVisit(wps, r.waypoints, j) ==>
        check(pos, history, wps[j].point).Some? && r.lastScore == check(pos, history, wps[j].point).value
  {
    var r := VisitFrom(next, i + 1, pos, history, check, later);
    forall j | i <= j && NewestVisit(wps, r.waypoints, j)
      ensures check(pos, history, wps[j].point).Some? && r.lastScore == check(pos, history, wps[j].point).value
    {
      assert |Template(r.waypoints)| == |Template(next)|;
      if j == i {
        assert r.waypoints[i] == next[i];
        assert forall k :: i + 1 <= k < |wps| ==> next[k] == wps[k];
      } else {
        assert forall k :: i < k < |wps| ==> next[k] == wps[k];
        assert NewestVisit(next, r.waypoints, j);
      }
    }
  }

  /** One step of the fold: the characterisation proved from `i + 1` on for the
      list after step `i` carries over to the list before it. */
  lemma VisitStep(wps: seq<PlayerWaypoint>, i: nat, next: seq<PlayerWaypoint>, done: seq<PlayerWaypoint>,
                  pos: Position, history: seq<Position>, check: Crossing)
    requires i < |wps|
    requires next == if Enabled(wps, wps[i]) && !wps[i].visited && check(pos, history, wps[i].point).Some?
                     then wps[i := wps[i].(visited := true)] else wps
    requires |done| == |wps|
    requires forall j :: 0 <= j < i + 1 ==> done[j] == next[j]
    requires forall j :: i + 1 <= j < |wps| ==>
      (done[j].visited <==>
         next[j].visited
         || (Enabled(Midway(done, next, j), next[j]) && check(pos, history, next[j].point).Some?))
    ensures forall j :: i <= j < |wps| ==>
      (done[j].visited <==>
         wps[j].visited
         || (Enabled(Midway(done, wps, j), wps[j]) && check(pos, history, wps[j].point).Some?))
  {
    assert Midway(done, wps, i) == wps by {
      assert done[..i] == wps[..i];
    }
    forall j | i < j < |wps|
      ensures Midway(done, next, j) == Midway(done, wps, j) && next[j] == wps[j]
    {
      assert next[j..] == wps[j..];
    }
  }

  /** The part of `updatePosition` past the stationary test: each waypoint
      ends visited iff it was already, or it was enabled on the list as
      updated up to it and the crossing detector reported a visit; the sample
      then joins the history. */
  function Moved(p: Player, pos: Position, check: Crossing): (r: Player)
    ensures r.positions == Remember(p.positions, pos)
    ensures r.id == p.id && r.firstName == p.firstName && r.lastName == p.lastName
    ensures Template(r.waypoints) == Template(p.waypoints)
    ensures forall j :: 0 <= j < |p.waypoints| && p.waypoints[j].visited ==> r.waypoints[j].visited
    ensures forall j :: 0 <= j < |p.waypoints| ==>
      (r.waypoints[j].visited <==>
         p.waypoints[j].visited
         || (Enabled(Midway(r.waypoints, p.waypoints, j), p.waypoints[j])
             && check(pos, p.positions, p.waypoints[j].point).Some?))
    ensures r.lastScore != p.lastScore ==>
      exists j :: 0 <= j < |p.waypoints| && !p.waypoints[j].visited && r.waypoints[j].visited
  {
    var v := VisitFrom(p.waypoints, 0, pos, p.positions, check, p.lastScore);
    p.(waypoints := v.waypoints, lastScore := v.lastScore, positions := Remember(p.positions, pos))
  }

  /** `updatePosition`. A stationary repeat changes nothing; otherwise the
      waypoint loop runs (see `Moved`) and the sample joins the history. Either
      way the template and identity are kept, flags are only turned on, the
      ordering gate holds, the score does not drop, and `lastScore` changes
      only with a new visit. */
  function UpdatePosition(p: Player, pos: Position, check: Crossing): (r: Player)
    ensures Stationary(p.positions, pos) ==> r == p
    ensures !Stationary(p.positions, pos) ==> r == Moved(p, pos, check)
    ensures |p.positions| <= HistoryCapacity ==> |r.positions| <= HistoryCapacity
    ensures r.id == p.id && r.firstName == p.firstName && r.lastName == p.lastName
    ensures Template(r.waypoints) == Template(p.waypoints)
    ensures forall j :: 0 <= j < |p.waypoints| && p.waypoints[j].visited ==> r.waypoints[j].visited
    ensures r.lastScore != p.lastScore ==>
      exists j :: 0 <= j < |p.waypoints| && !p.waypoints[j].visited && r.waypoints[j].visited
    ensures |r.waypoints| == |p.waypoints| && Gated(p.waypoints, r.waypoints)
    ensures Score(p.waypoints) <= Score(r.waypoints)
    ensures HasStarted(p) ==> HasStarted(r)
  {
    if Stationary(p.positions, pos) then p
    else
      var r := Moved(p, pos, check);
      FoldKeepsGate(p.waypoints, r.waypoints, pos, p.positions, check);
      FlagsOnKeepProgress(p, r);
      r
  }

  /** After an update, `lastScore` is the time the crossing detector reported
      for the last waypoint the update turned on. */
  lemma UpdateRecordsVisitTime(p: Player, pos: Position, check: Crossing)
    ensures var r := UpdatePosition(p, pos, check);
      forall j :: NewestVisit(p.waypoints, r.waypoints, j) ==>
        check(pos, p.positions, p.waypoints[j].point).Some?
        && r.lastScore == check(pos, p.positions, p.waypoints[j].point).value
  {
    NewestVisitTime(p.waypoints, 0, pos, p.positions, check, p.lastScore);
  }

  /** A waypoint newly visited by an update was reported by the crossing detector. */
  lemma NewVisitsAreReported(p: Player, pos: Position, check: Crossing)
    ensures var r := UpdatePosition(p, pos, check);
      forall j :: 0 <= j < |p.waypoints| && !p.waypoints[j].visited && r.waypoints[j].visited ==>
        check(pos, p.positions, p.waypoints[j].point).Some?
  {
  }

  /** The ordering gate between two states of a waypoint list: a newly visited
      finish means every role-less waypoint is visited, and a newly visited
      role-less waypoint means every start is. */
  predicate Gated(before: seq<PlayerWaypoint>, after: seq<PlayerWaypoint>)
    requires |before| == |after|
  {
    forall j :: 0 <= j < |before| && !before[j].visited && after[j].visited ==>
      && (before[j].point.role == Finish ==>
            forall k :: 0 <= k < |after| && after[k].point.role == Unset ==> after[k].visited)
      && (before[j].point.role == Unset ==>
            forall k :: 0 <= k < |after| && after[k].point.role == Start ==> after[k].visited)
  }

  /** Any list related to `w` the way the waypoint loop relates them keeps the
      ordering gate. */
  lemma FoldKeepsGate(w: seq<PlayerWaypoint>, r: seq<PlayerWaypoint>, pos: Position, history: seq<Position>,
                      check: Crossing)
    requires Template(r) == Template(w)
    requires forall j :: 0 <= j < |w| && w[j].visited ==> r[j].visited
    requires forall j :: 0 <= j < |w| ==>
      (r[j].visited <==>
         w[j].visited || (Enabled(Midway(r, w, j), w[j]) && check(pos, history, w[j].point).Some?))
    ensures |r| == |w| && Gated(w, r)
  {
    assert |Template(r)| == |Template(w)|;
    forall k | 0 <= k < |w| ensures r[k].point == w[k].point {
      assert Template(r)[k] == Template(w)[k];
    }
    forall j | 0 <= j < |w| && !w[j].visited && r[j].visited
      ensures w[j].point.role == Finish ==>
                forall k :: 0 <= k < |r| && r[k].point.role == Unset ==> r[k].visited
      ensures w[j].point.role == Unset ==>
                forall k :: 0 <= k < |r| && r[k].point.role == Start ==> r[k].visited
    {
      var mid := Midway(r, w, j);
      assert Enabled(mid, w[j]);
      forall k | 0 <= k < |w|
        ensures mid[k].point == r[k].point
        ensures mid[k].visited ==> r[k].visited
      {
        if k < j { assert mid[k] == r[k]; } else { assert mid[k] == w[k]; }
      }
    }
  }

  /** Flags only turned on, template unchanged: the score cannot drop and a
      started player stays started. */
  lemma FlagsOnKeepProgress(p: Player, r: Player)
    requires Template(r.waypoints) == Template(p.waypoints)
    requires forall j :: 0 <= j < |p.waypoints| && p.waypoints[j].visited ==> r.waypoints[j].visited
    ensures Score(p.waypoints) <= Score(r.waypoints)
    ensures HasStarted(p) ==> HasStarted(r)
  {
    assert |Template(r.waypoints)| == |Template(p.waypoints)|;
    forall i | 0 <= i < |p.waypoints| ensures p.waypoints[i].point == r.waypoints[i].point {
      assert Template(r.waypoints)[i] == Template(p.waypoints)[i];
    }
    ScoreMonotone(p.waypoints, r.waypoints);
  }
}

=== FILE: waypoints.dfy ===
/** The entities shared by the quest cache, the players and the leaderboard. */
module Waypoints {

  /** A waypoint's role. Ordinary waypoints carry no role at all. */
  datatype Role = Unset | Start | Finish

  /** A waypoint of the quest template, already mapped to map-plane coordinates.
      The display hints (`rotate`, `size`, `image`) play no part in the logic. */
  datatype Waypoint = Waypoint(name: string, x: int, y: int, role: Role)

  /** A player's copy of a template waypoint together with its `visited` flag. */
  datatype PlayerWaypoint = PlayerWaypoint(point: Waypoint, visited: bool)

  /** One sample of the live position feed. */
  datatype Position = Position(riderId: int, firstName: string, lastName: string, x: int, y: int)

  /** The template fields of a player's waypoint list, in order. */
  function Template(wps: seq<PlayerWaypoint>): (r: seq<Waypoint>)
    ensures |r| == |wps|
    ensures forall k :: 0 <= k < |wps| ==> r[k] == wps[k].point
  {
    seq(|wps|, k requires 0 <= k < |wps| => wps[k].point)
  }
}

=== FILE: wrappers.dfy ===
/** Optional values, standing in for JavaScript's `null` / `undefined`. */
module Wrappers {

  datatype Option<+T> = None | Some(value: T)
}

/** Searching sequences the way JavaScript's `Array.prototype.find` does. */
module Seqs {
  import opened Wrappers

  /** The index of the FIRST element satisfying `f`, or `None` when there is none. */
  function FindIndex<T>(s: seq<T>, f: T -> bool): (r: Option<nat>)
    ensures r.Some? ==> r.value < |s| && f(s[r.value])
    ensures r.Some? ==> forall j :: 0 <= j < r.value ==> !f(s[j])
    ensures r.None? <==> forall j :: 0 <= j < |s| ==> !f(s[j])
    decreases |s|
  {
    if |s| == 0 then None
    else if f(s[0]) then Some(0)
    else
      match FindIndex(s[1..], f)
      case Some(k) => Some(k + 1)
      case None => None
  }
}

=== FILE: zwift_quest.dfy ===
/** The `ZwiftQuest` class: the quest cache lookup `get`, the throttled poll
    pass `updateState`, the event window `checkPendingEvent` and the global
    `resetScores`. Both caches are shared by every quest instance. */
module ZwiftQuest {
  import opened Wrappers
  import opened Waypoints
  import opened Players
  import opened Visitation
  import opened QuestPayload
  import opened PlayerStore
  import opened Leaderboard

  /** Minimum time between two poll passes, in milliseconds. */
  const PollInterval: int := 2500

  /** Length of the warm-up window before an event start, in milliseconds. */
  const WarmUp: int := 10 * 60000

  /** The per-instance state. `riderFeed` and `events` say whether the rider
      provider supplied an anonymous rider feed and an event schedule. */
  datatype QuestState = QuestState(
    worldId: int,
    riderFeed: bool,
    events: bool,
    globalMessage: Option<string>,
    eventIsPending: bool,
    lastPollDate: Option<int>)

  /** The module-level caches: mapped waypoints per world, and players. */
  datatype Caches = Caches(quests: map<int, seq<Waypoint>>, players: Store)

  datatype State = State(quest: QuestState, caches: Caches)

  /** An entry of the event schedule; its start may be missing or unreadable. */
  datatype Event = Event(eventStart: Option<int>)

  /** The schedule lookup's outcome: it answered with the matching event,
      if any, or it rejected or has not answered, which changes nothing. */
  datatype Schedule = Answered(event: Option<Event>) | Unanswered

  /** What the outside world supplies to one call: the clock, the live
      positions and the schedule lookup's outcome. */
  datatype PollInput = PollInput(now: int, positions: seq<Position>, schedule: Schedule)

  /** A fresh instance for `worldId`: no message, no pending event, and a
      first pass due as soon as there is a rider feed. */
  function NewQuest(worldId: int, riderFeed: bool, events: bool): (r: QuestState)
    ensures r.worldId == worldId && r.riderFeed == riderFeed && r.events == events
    ensures r.globalMessage.None? && !r.eventIsPending
    ensures forall now :: PollDue(r, now) <==> riderFeed
  {
    QuestState(worldId, riderFeed, events, None, false, None)
  }

  /** Strictly inside the ten minutes before `start`. */
  predicate InWarmUp(start: int, now: int)
  {
    start - WarmUp < now < start
  }

  /** `resetScores`: every cached player of every world is reset. */
  function ResetScores(c: Caches): (r: Caches)
    ensures r.quests == c.quests
    ensures |r.players| == |c.players| && AllReset(r.players)
    ensures forall i :: 0 <= i < |c.players| ==>
      r.players[i].key == c.players[i].key && r.players[i].player.positions == c.players[i].player.positions
    ensures forall i :: 0 <= i < |c.players| ==> r.players[i].player == ResetScore(c.players[i].player)
  {
    c.(players := ResetAll(c.players))
  }

  /** `checkPendingEvent` with the schedule lookup's outcome. Without a
      schedule, or when the lookup did not answer, nothing changes: a flag set
      earlier stays set. Otherwise the event is pending iff
      it has a start and `now` is strictly inside its warm-up window, and a
      pending event resets every cached player. */
  function CheckPendingEvent(st: State, answer: Schedule, now: int): (r: State)
    ensures !st.quest.events || answer.Unanswered? ==> r == st
    ensures st.quest.events && answer.Answered? ==>
      (r.quest.eventIsPending <==>
         answer.event.Some? && answer.event.value.eventStart.Some? && InWarmUp(answer.event.value.eventStart.value, now))
    ensures r.quest == st.quest.(eventIsPending := r.quest.eventIsPending)
    ensures r.caches.quests == st.caches.quests
    ensures st.quest.events && answer.Answered? && r.quest.eventIsPending ==> AllReset(r.caches.players)
    ensures st.quest.events && answer.Answered? && r.quest.eventIsPending ==>
      r.caches.players == ResetAll(st.caches.players)
    ensures !(st.quest.events && answer.Answered? && r.quest.eventIsPending) ==> r.caches == st.caches
  {
    if !st.quest.events || answer.Unanswered? then st
    else
      match answer.event
      case Some(Event(Some(start))) =>
        if InWarmUp(start, now) then State(st.quest.(eventIsPending := true), ResetScores(st.caches))
        else State(st.quest.(eventIsPending := false), st.caches)
      case _ => State(st.quest.(eventIsPending := false), st.caches)
  }

  function KeyOf(worldId: int, pos: Position): (r: PlayerKey)
  {
    PlayerKey(worldId, pos.riderId)
  }

  /** The player a sample of `key` works on: the stored one, or a new player
      first seen in `pos`. */
  function Stored(s: Store, key: PlayerKey, pos: Position, now: int): (r: Player)
    ensures Lookup(s, key).Some? ==> r == Lookup(s, key).value
    ensures Lookup(s, key).None? ==> r == NewPlayer(pos, now)
  {
    match Lookup(s, key) case Some(p) => p case None => NewPlayer(pos, now)
  }

  /** What one sample makes of its player: rebound to `points`, then moved
      to `pos` unless an event is pending. */
  function Sample(s: Store, worldId: int, pos: Position, points: seq<Waypoint>, pending: bool,
                  check: Crossing, now: int): (r: Player)
    ensures Template(r.waypoints) == points
    ensures var p := Stored(s, KeyOf(worldId, pos), pos, now);
      && r.id == p.id && r.firstName == p.firstName && r.lastName == p.lastName
      && (pending ==> r.positions == p.positions && r.lastScore == p.lastScore)
  {
    var refreshed := RefreshWaypoints(Stored(s, KeyOf(worldId, pos), pos, now), points);
    if pending then refreshed else UpdatePosition(refreshed, pos, check)
  }

  /** A sample never scores below the rider's refreshed flags, and a rider
      who had started on the refreshed list is still started. */
  lemma SampleKeepsProgress(s: Store, worldId: int, pos: Position, points: seq<Waypoint>, pending: bool,
                            check: Crossing, now: int)
    ensures var p := Stored(s, KeyOf(worldId, pos), pos, now);
      var r := Sample(s, worldId, pos, points, pending, check, now);
      && Score(r.waypoints) >= Score(Refresh(p.waypoints, points))
      && (HasStarted(RefreshWaypoints(p, points)) ==> HasStarted(r))
  {
  }

  /** One feed sample of a poll pass: fetch or create the player, rebind it to
      `points`, and run `updatePosition` unless an event is pending. */
  function Observe(s: Store, worldId: int, pos: Position, points: seq<Waypoint>, pending: bool,
                   check: Crossing, now: int): (r: Store)
    ensures var p := RefreshWaypoints(Stored(s, KeyOf(worldId, pos), pos, now), points);
      Lookup(r, KeyOf(worldId, pos)) == Some(if pending then p else UpdatePosition(p, pos, check))
    ensures Lookup(r, KeyOf(worldId, pos)).Some?
    ensures Template(Lookup(r, KeyOf(worldId, pos)).value.waypoints) == points
    ensures forall k :: k != KeyOf(worldId, pos) ==> Lookup(r, k) == Lookup(s, k)
    ensures forall k :: Has(r, k) <==> Has(s, k) || k == KeyOf(worldId, pos)
    ensures |s| <= |r| && forall i :: 0 <= i < |s| ==> r[i].key == s[i].key
    ensures pending ==> forall i :: 0 <= i < |s| ==> r[i].player.positions == s[i].player.positions
    ensures pending && AllReset(s) ==> AllReset(r)
  {
    var key := KeyOf(worldId, pos);
    var updated := Sample(s, worldId, pos, points, pending, check, now);
    Put(s, key, updated)
  }

  /** The per-position loop of a poll pass, in feed order. Old keys keep
      their places; every sampled rider ends up stored. */
  function ApplyPositions(s: Store, worldId: int, positions: seq<Position>, points: seq<Waypoint>,
                          pending: bool, check: Crossing, now: int): (r: Store)
    ensures |s| <= |r| && forall i :: 0 <= i < |s| ==> r[i].key == s[i].key
    ensures forall pos :: pos in positions ==> Has(r, KeyOf(worldId, pos))
    decreases |positions|
  {
    if |positions| == 0 then s
    else
      var next := Observe(s, worldId, positions[0], points, pending, check, now);
      var r := ApplyPositions(next, worldId, positions[1..], points, pending, check, now);
      assert forall pos :: pos in positions ==> pos == positions[0] || pos in positions[1..];
      r
  }

  /** A pass stores exactly the old keys and the sampled riders' keys. */
  lemma {:induction false} ApplyKeys(s: Store, worldId: int, positions: seq<Position>, points: seq<Waypoint>,
                                     pending: bool, check: Crossing, now: int)
    ensures var r := ApplyPositions(s, worldId, positions, points, pending, check, now);
      forall k :: Has(r, k) <==> Has(s, k) || exists pos :: pos in positions && k == KeyOf(worldId, pos)
    decreases |positions|
  {
    if |positions| > 0 {
      var next := Observe(s, worldId, positions[0], points, pending, check, now);
      var r := ApplyPositions(s, worldId, positions, points, pending, check, now);
      ApplyKeys(next, worldId, positions[1..], points, pending, check, now);
      forall k ensures Has(r, k) <==> Has(s, k) || exists pos :: pos in positions && k == KeyOf(worldId, pos) {
        if k == KeyOf(worldId, positions[0]) {
          assert positions[0] in positions;
        } else {
          assert (exists pos :: pos in positions && k == KeyOf(worldId, pos))
             <==> (exists pos :: pos in positions[1..] && k == KeyOf(worldId, pos)) by {
            assert forall pos :: pos in positions <==> pos == positions[0] || pos in positions[1..];
          }
        }
      }
    }
  }

  /** Players not sampled in a pass are left exactly as they were. */
  lemma {:induction false} ApplyLeavesUnsampled(s: Store, worldId: int, positions: seq<Position>,
                                                points: seq<Waypoint>, pending: bool, check: Crossing,
                                                now: int, k: PlayerKey)
    requires forall pos :: pos in positions ==> k != KeyOf(worldId, pos)
    ensures Lookup(ApplyPositions(s, worldId, positions, points, pending, check, now), k) == Lookup(s, k)
    decreases |positions|
  {
    if |positions| > 0 {
      var next := Observe(s, worldId, positions[0], points, pending, check, now);
      assert positions[0] in positions;
      assert forall pos :: pos in positions[1..] ==> pos in positions;
      ApplyLeavesUnsampled(next, worldId, positions[1..], points, pending, check, now, k);
    }
  }

  /** After a pass every sampled player is bound to the pass's template. */
  lemma {:induction false} ApplyBindsTemplate(s: Store, worldId: int, positions: seq<Position>,
                                              points: seq<Waypoint>, pending: bool, check: Crossing, now: int)
    ensures var r := ApplyPositions(s, worldId, positions, points, pending, check, now);
      forall pos :: pos in positions ==> Template(Lookup(r, KeyOf(worldId, pos)).value.waypoints) == points
    decreases |positions|
  {
    if |positions| > 0 {
      var next := Observe(s, worldId, positions[0], points, pending, check, now);
      var r := ApplyPositions(s, worldId, positions, points, pending, check, now);
      ApplyBindsTemplate(next, worldId, positions[1..], points, pending, check, now);
      forall pos | pos in positions
        ensures Template(Lookup(r, KeyOf(worldId, pos)).value.waypoints) == points
      {
        if pos !in positions[1..] {
          assert pos == positions[0];
          if exists q :: q in positions[1..] && KeyOf(worldId, q) == KeyOf(worldId, pos) {
            var q :| q in positions[1..] && KeyOf(worldId, q) == KeyOf(worldId, pos);
            assert Template(Lookup(r, KeyOf(worldId, q)).value.waypoints) == points;
          } else {
            ApplyLeavesUnsampled(next, worldId, positions[1..], points, pending, check, now, KeyOf(worldId, pos));
          }
        }
      }
    }
  }

  /** While an event is pending a pass moves no history, and players that
      were all reset stay reset. */
  lemma {:induction false} ApplyWhilePending(s: Store, worldId: int, positions: seq<Position>,
                                             points: seq<Waypoint>, check: Crossing, now: int)
    ensures var r := ApplyPositions(s, worldId, positions, points, true, check, now);
      forall i :: 0 <= i < |s| ==> r[i].player.positions == s[i].player.positions
    ensures AllReset(s) ==> AllReset(ApplyPositions(s, worldId, positions, points, true, check, now))
    decreases |positions|
  {
    if |positions| > 0 {
      var next := Observe(s, worldId, positions[0], points, true, check, now);
      ApplyWhilePending(next, worldId, positions[1..], points, check, now);
    }
  }

  /** No other sample of the pass produces the key of sample `i`. */
  predicate SampledOnce(worldId: int, positions: seq<Position>, i: int)
  {
    && 0 <= i < |positions|
    && forall j :: 0 <= j < |positions| && j != i ==> KeyOf(worldId, positions[j]) != KeyOf(worldId, positions[i])
  }

  /** A rider sampled once in a pass ends as that sample makes it of the
      player stored before the pass: rebound to `points`, and moved to the
      sample unless an event is pending. */
  lemma {:induction false} ApplySampleOnce(s: Store, worldId: int, positions: seq<Position>,
                                           points: seq<Waypoint>, pending: bool, check: Crossing, now: int, i: int)
    requires SampledOnce(worldId, positions, i)
    ensures Lookup(ApplyPositions(s, worldId, positions, points, pending, check, now), KeyOf(worldId, positions[i]))
         == Some(Sample(s, worldId, positions[i], points, pending, check, now))
    decreases |positions|
  {
    if i == 0 {
      ApplyFirstSample(s, worldId, positions, points, pending, check, now);
    } else {
      var next := Observe(s, worldId, positions[0], points, pending, check, now);
      assert SampledOnce(worldId, positions[1..], i - 1) by {
        forall j | 0 <= j < |positions[1..]| && j != i - 1
          ensures KeyOf(worldId, positions[1..][j]) != KeyOf(worldId, positions[1..][i - 1])
        {
          assert positions[1..][j] == positions[j + 1];
        }
      }
      assert positions[1..][i - 1] == positions[i];
      ApplySampleOnce(next, worldId, positions[1..], points, pending, check, now, i - 1);
      SampleReadsOneKey(next, s, worldId, positions[i], points, pending, check, now);
    }
  }

  /** The first sample, when no later one shares its key, decides its player. */
  lemma ApplyFirstSample(s: Store, worldId: int, positions: seq<Position>,
                         points: seq<Waypoint>, pending: bool, check: Crossing, now: int)
    requires SampledOnce(worldId, positions, 0)
    ensures Lookup(ApplyPositions(s, worldId, positions, points, pending, check, now), KeyOf(worldId, positions[0]))
         == Some(Sample(s, worldId, positions[0], points, pending, check, now))
  {
    var next := Observe(s, worldId, positions[0], points, pending, check, now);
    var key := KeyOf(worldId, positions[0]);
    forall pos | pos in positions[1..] ensures key != KeyOf(worldId, pos) {
      var j :| 0 <= j < |positions[1..]| && positions[1..][j] == pos;
      assert positions[j + 1] == pos;
    }
    ApplyLeavesUnsampled(next, worldId, positions[1..], points, pending, check, now, key);
  }

  /** A sample depends on the store only through the entry under its key. */
  lemma SampleReadsOneKey(s: Store, t: Store, worldId: int, pos: Position, points: seq<Waypoint>, pending: bool,
                          check: Crossing, now: int)
    requires Lookup(s, KeyOf(worldId, pos)) == Lookup(t, KeyOf(worldId, pos))
    ensures Sample(s, worldId, pos, points, pending, check, now) == Sample(t, worldId, pos, points, pending, check, now)
  {
    assert Stored(s, KeyOf(worldId, pos), pos, now) == Stored(t, KeyOf(worldId, pos), pos, now);
  }

  /** A poll pass is due: a rider feed exists, and no pass ran yet or the last
      one is more than `PollInterval` old. */
  predicate PollDue(q: QuestState, now: int)
  {
    q.riderFeed && (q.lastPollDate.None? || now - q.lastPollDate.value > PollInterval)
  }

  /** One poll pass: settle the event window, apply every live position to
      its player and stamp the poll time. */
  function Pass(st: State, points: seq<Waypoint>, input: PollInput, check: Crossing): (r: State)
    ensures r.quest == CheckPendingEvent(st, input.schedule, input.now).quest.(lastPollDate := Some(input.now))
    ensures r.quest.lastPollDate == Some(input.now)
    ensures r.quest.riderFeed == st.quest.riderFeed && r.quest.events == st.quest.events
    ensures r.quest.worldId == st.quest.worldId && r.quest.globalMessage == st.quest.globalMessage
    ensures r.caches.quests == st.caches.quests
    ensures |st.caches.players| <= |r.caches.players|
    ensures forall pos :: pos in input.positions ==> Has(r.caches.players, KeyOf(st.quest.worldId, pos))
    ensures forall pos :: pos in input.positions ==>
      Template(Lookup(r.caches.players, KeyOf(st.quest.worldId, pos)).value.waypoints) == points
    ensures st.quest.events && input.schedule.Answered? && r.quest.eventIsPending ==>
      && AllReset(r.caches.players)
      && forall i :: 0 <= i < |st.caches.players| ==>
           r.caches.players[i].player.positions == st.caches.players[i].player.positions
    ensures r.quest.eventIsPending ==> forall i :: 0 <= i < |st.caches.players| ==>
      r.caches.players[i].player.positions == st.caches.players[i].player.positions
    ensures forall k :: Has(r.caches.players, k) <==>
      Has(st.caches.players, k) || exists pos :: pos in input.positions && k == KeyOf(st.quest.worldId, pos)
  {
    var checked := CheckPendingEvent(st, input.schedule, input.now);
    var players := ApplyPositions(checked.caches.players, st.quest.worldId, input.positions, points,
                                  checked.quest.eventIsPending, check, input.now);
    ApplyKeys(checked.caches.players, st.quest.worldId, input.positions, points,
              checked.quest.eventIsPending, check, input.now);
    ApplyBindsTemplate(checked.caches.players, st.quest.worldId, input.positions, points,
                       checked.quest.eventIsPending, check, input.now);
    ApplyWhilePending(checked.caches.players, st.quest.worldId, input.positions, points, check, input.now);
    CheckKeepsKeys(st, input.schedule, input.now);
    State(checked.quest.(lastPollDate := Some(input.now)), checked.caches.(players := players))
  }

  /** The event check never adds or drops a cached key. */
  lemma CheckKeepsKeys(st: State, answer: Schedule, now: int)
    ensures forall k :: Has(CheckPendingEvent(st, answer, now).caches.players, k) <==> Has(st.caches.players, k)
  {
    var r := CheckPendingEvent(st, answer, now).caches.players;
    assert |r| == |st.caches.players| && forall i :: 0 <= i < |r| ==> r[i].key == st.caches.players[i].key;
  }

  /** A pass touches a player no sample of the feed names, in particular
      every player of another world, only through the event reset. */
  lemma PassLeavesOtherWorlds(st: State, points: seq<Waypoint>, input: PollInput, check: Crossing, k: PlayerKey)
    requires forall pos :: pos in input.positions ==> k != KeyOf(st.quest.worldId, pos)
    ensures Lookup(Pass(st, points, input, check).caches.players, k)
         == Lookup(CheckPendingEvent(st, input.schedule, input.now).caches.players, k)
  {
    var checked := CheckPendingEvent(st, input.schedule, input.now);
    ApplyLeavesUnsampled(checked.caches.players, st.quest.worldId, input.positions, points,
                         checked.quest.eventIsPending, check, input.now, k);
  }

  /** Outside the warm-up, a pass runs `updatePosition` for every rider it
      samples once, on the player stored before the pass rebound to the
      quest's template. */
  lemma PassMovesSampledRiders(st: State, points: seq<Waypoint>, input: PollInput, check: Crossing)
    ensures var r := Pass(st, points, input, check);
      !r.quest.eventIsPending ==>
        forall i :: SampledOnce(st.quest.worldId, input.positions, i) ==>
          var pos := input.positions[i];
          var key := KeyOf(st.quest.worldId, pos);
          Lookup(r.caches.players, key)
            == Some(UpdatePosition(RefreshWaypoints(Stored(st.caches.players, key, pos, input.now), points), pos, check))
  {
    var checked := CheckPendingEvent(st, input.schedule, input.now);
    forall i | SampledOnce(st.quest.worldId, input.positions, i)
      ensures Lookup(Pass(st, points, input, check).caches.players, KeyOf(st.quest.worldId, input.positions[i]))
           == Some(Sample(checked.caches.players, st.quest.worldId, input.positions[i], points,
                          checked.quest.eventIsPending, check, input.now))
    {
      ApplySampleOnce(checked.caches.players, st.quest.worldId, input.positions, points,
                      checked.quest.eventIsPending, check, input.now, i);
    }
  }

  /** `updateState`: a pass runs only when one is due; otherwise nothing changes. */
  function UpdateState(st: State, points: seq<Waypoint>, input: PollInput, check: Crossing): (r: State)
    ensures !PollDue(st.quest, input.now) ==> r == st
    ensures PollDue(st.quest, input.now) ==> r == Pass(st, points, input, check)
    ensures r.quest.worldId == st.quest.worldId && r.quest.globalMessage == st.quest.globalMessage
    ensures r.caches.quests == st.caches.quests
  {
    if PollDue(st.quest, input.now) then Pass(st, points, input, check) else st
  }

  datatype Answer = Answer(state: State, points: Outcome)

  /** `get`: a cached list, even an empty one, is served as it is; on a miss
      the downloaded `payload` is interpreted, cached whatever it yields, and
      served. Either way a poll pass may follow. A rejected download leaves
      both caches alone. */
  function Get(st: State, payload: Payload, input: PollInput, check: Crossing, mapper: CoordinateMap): (r: Answer)
    ensures st.quest.worldId in st.caches.quests ==>
      && r.points == Resolved(st.caches.quests[st.quest.worldId])
      && r.state.caches.quests == st.caches.quests
      && r.state.quest.globalMessage == st.quest.globalMessage
      && r.state == UpdateState(st, st.caches.quests[st.quest.worldId], input, check)
    ensures st.quest.worldId !in st.caches.quests ==>
      var loaded := Load(st.quest.worldId, payload, mapper);
      && r.points == loaded.outcome
      && r.state.quest.globalMessage == loaded.message
      && (loaded.outcome.Resolved? ==>
            r.state.caches.quests == st.caches.quests[st.quest.worldId := loaded.outcome.points])
      && (loaded.outcome.Resolved? ==>
            var filled := State(st.quest.(globalMessage := loaded.message),
                                st.caches.(quests := st.caches.quests[st.quest.worldId := loaded.outcome.points]));
            r.state == UpdateState(filled, loaded.outcome.points, input, check))
      && (loaded.outcome.Rejected? ==> r.state == State(st.quest.(globalMessage := loaded.message), st.caches))
    ensures r.state.quest.worldId == st.quest.worldId
  {
    var worldId := st.quest.worldId;
    if worldId in st.caches.quests then
      var points := st.caches.quests[worldId];
      Answer(UpdateState(st, points, input, check), Resolved(points))
    else
      var loaded := Load(worldId, payload, mapper);
      var quest := st.quest.(globalMessage := loaded.message);
      match loaded.outcome
      case Rejected => Answer(State(quest, st.caches), Rejected)
      case Resolved(points) =>
        var cached := State(quest, st.caches.(quests := st.caches.quests[worldId := points]));
        Answer(UpdateState(cached, points, input, check), Resolved(points))
  }

  /** Failures are cached: after a failed download, every later `get` of the
      world serves the empty list, whatever the source would now say. */
  lemma FailedDownloadIsCached(st: State, input: PollInput, later: Payload, input2: PollInput,
                               check: Crossing, mapper: CoordinateMap)
    requires st.quest.worldId !in st.caches.quests
    ensures var first := Get(st, FailedDownload, input, check, mapper);
      && first.points == Resolved([])
      && Get(first.state, later, input2, check, mapper).points == Resolved([])
  {
    var first := Get(st, FailedDownload, input, check, mapper);
    FailedDownloadLoadsNothing(st.quest.worldId, mapper);
    assert first.state.caches.quests[st.quest.worldId] == [];
  }

  /** A second pass within `PollInterval` of one that ran changes nothing. */
  lemma PollThrottled(st: State, points: seq<Waypoint>, input: PollInput, input2: PollInput, check: Crossing)
    requires PollDue(st.quest, input.now)
    requires input2.now - input.now <= PollInterval
    ensures var once := UpdateState(st, points, input, check);
      UpdateState(once, points, input2, check) == once
  {
  }

  /** An event starting within ten minutes freezes every cached player at
      score zero, while the positions already recorded stay as they were. */
  lemma WarmUpFreezesScores(st: State, points: seq<Waypoint>, input: PollInput, check: Crossing, start: int)
    requires PollDue(st.quest, input.now) && st.quest.events
    requires input.schedule == Answered(Some(Event(Some(start)))) && input.now < start < input.now + WarmUp
    ensures var r := UpdateState(st, points, input, check);
      && r.quest.eventIsPending
      && forall i :: 0 <= i < |r.caches.players| ==> Score(r.caches.players[i].player.waypoints) == 0
  {
    var r := UpdateState(st, points, input, check);
    forall i | 0 <= i < |r.caches.players|
      ensures Score(r.caches.players[i].player.waypoints) == 0
    {
      ScoreOfUnvisited(r.caches.players[i].player.waypoints);
    }
  }

  /** `infoPanel` of an instance: the leaderboard over the whole player cache.
      It lists scores iff some cached player, of any world, has started, and
      shows the banner iff the message is set. */
  function Info(st: State): (r: Panel)
    ensures r.scores.None? <==>
      forall i :: 0 <= i < |st.caches.players| ==> !HasStarted(st.caches.players[i].player)
    ensures r.showWaypoints <==> r.scores.None?
    ensures r.scores.Some? ==> Ranked(r.scores.value)
    ensures r.scores.Some? ==> multiset(r.scores.value) == multiset(StartedEntries(Cached(st.caches.players)))
    ensures r.messages.Some? <==> Shown(st.quest.globalMessage)
  {
    InfoPanel(Cached(st.caches.players), st.quest.globalMessage)
  }

  /** The leaderboard is not restricted to this instance's world: any started
      player in the cache, of any world, is listed. */
  lemma PanelSpansAllWorlds(st: State, k: PlayerKey)
    requires Lookup(st.caches.players, k).Some? && HasStarted(Lookup(st.caches.players, k).value)
    ensures Info(st).scores.Some?
    ensures EntryOf(Lookup(st.caches.players, k).value) in Info(st).scores.value
  {
    var s := st.caches.players;
    var p := Lookup(s, k).value;
    var i :| 0 <= i < |s| && s[i] == Slot(k, p);
    assert Cached(s)[i] == p;
  }
}
